=== FILE: README.md ===
# Next-event simulations: a verified model

This project models the core of a small collection of simulations. Two are
"next-event time-advance" discrete-event simulations written in C++. The third
is a Monte-Carlo estimate for the secretary problem, written in Python.

- **Event list** (`event_list.dfy`, module `EventList`). Both C++ programs keep
  one due time per event kind. `timing` picks the kind with the strictly
  smallest due time, so ties go to the lowest kind. Only times below `1e29`
  are eligible. `1e30` means "never". When nothing is eligible the run aborts
  with "event list empty", which is an explicit `None` here.
- **Variates** (`variates.dfy`, module `Variates`). `random_integer` searches a
  cumulative table for the first entry above the uniform draw `u`. `uniform`
  scales `u` onto `[a, b]`. The draw `u` is a parameter.
- **Inventory** (`inventory.dfy`, module `Inventory`). This is the (s, S)
  reorder model. It has four event kinds: order arrival, demand, end of
  horizon and monthly evaluation. It has handlers for `order_arrival`,
  `demand` and `evaluate`, a time-weighted accumulator for holding and
  shortage, and the `simulate` loop, which stops when the end-of-horizon event
  is dispatched.
- **Single-server queue** (`ssqs.dfy`, module `SingleServerQueue`). It has
  arrival and departure events. Waiting customers' arrival times sit in a
  fixed array of capacity `Q_LIMIT = 100`, and one more is a fatal overflow.
  The model also keeps the BUSY/IDLE server, the delay total, the
  delayed-customer count, event counters, and the `simulate` loop, which stops
  once enough customers have been delayed.
- **Secretary rule** (`secretary.dfy`, module `Secretary`). This covers
  `is_selection_successful`, with the shuffled candidate order as a parameter,
  and the success counting of `secretary_simulation`.

`arith.dfy` (module `Arith`) holds the one fact about real products that the statistics and the uniform variate need.

`results.dfy` (module `Results`) holds the `Option` and `Result` types. The
C++ programs end with a process exit code on a fatal condition. The model
returns that condition as an error value instead.

Every simulation step is a pure function from a state record to a new state
record. Times are `real`. A `Valid` predicate per model states the invariant
that steps keep. The `simulate` loops are recursive `Run` functions. Each pass
consumes one record of random draws.

## Model

| member | source | states |
|---|---|---|
| EventList.Scan | Inventory-Simulation/Code/inventory.cpp:57-66 | The scan keeps its loop invariant. Its running minimum is the first entry that is strictly smallest among those seen so far. It stays at the `1e29` bound with kind 0 when every entry seen so far is at or above the bound. |
| EventList.Timing | Inventory-Simulation/Code/inventory.cpp:56-74 | `timing` fails exactly when every due time is at or above `1e29`. Otherwise it returns a kind in 1..N with the smallest due time, and every lower kind is due strictly later. The returned time is that kind's due time. The callers' `Step` then moves the clock to it. |
| EventList.TimingSelectsEarliest | Inventory-Simulation/Code/inventory.cpp:57-71 | Both directions: `timing` returns kind k exactly when k is the earliest-due kind with ties going to the lowest kind. |
| EventList.TieGoesToLowerKind | Inventory-Simulation/Code/inventory.cpp:61-66 | Two kinds due at the same earliest time: the higher kind is never selected, because the comparison is a strict `<`. |
| EventList.TimingNeverGoesBack | Inventory-Simulation/Code/inventory.cpp:73 | When no kind is due before the current time, the new clock value is not before it. |
| Variates.SearchFrom | Inventory-Simulation/Code/inventory.cpp:20-21 | The search loop stops at the first index whose entry exceeds `u`. It runs off the table exactly when no remaining entry exceeds `u`. |
| Variates.RandomInteger | Inventory-Simulation/Code/inventory.cpp:17-23 | The result is the smallest index i >= 1 with `u < cdf[i]`. There is no result exactly when no entry exceeds `u`. |
| Variates.RandomIntegerInRange | Inventory-Simulation/Code/inventory.cpp:17-23 | If the last entry `cdf[N]` exceeds `u`, the outcome lies in 1..N. |
| Variates.RandomIntegerIsInverseTransform | Inventory-Simulation/Code/inventory.cpp:17-23 | On a cumulative table and a draw `u >= 0`, outcome i comes out exactly when `cdf[i-1] <= u < cdf[i]`. |
| Variates.Uniform | Inventory-Simulation/Code/inventory.cpp:25-28 | `uniform(a, b)` gives `a` for the draw 0 and `b` for the draw 1. A degenerate interval with `a = b` gives `a` for every draw. |
| Variates.UniformInRange | Inventory-Simulation/Code/inventory.cpp:25-28 | For `a <= b` and `u` in [0, 1], `uniform` lies in [a, b], at `a` for u = 0 and at `b` for u = 1. |
| Inventory.Initialize | Inventory-Simulation/Code/inventory.cpp:40-54 | The clock and `time_last_event` start at 0. Areas and ordering cost start at 0, and the level starts at the initial level. The schedule is: no order arrival, the first demand after the drawn interdemand time, the end of the horizon at `num_months`, and an evaluation at time 0. The initial state satisfies the invariant: nothing is due in the past and the horizon event sits at `num_months`. |
| Inventory.UpdateTimeAvgStats | Inventory-Simulation/Code/inventory.cpp:96-106 | Holding minus shortage grows by the pre-event level times the elapsed time. Only the area on the level's side changes. Both areas are non-decreasing for non-negative elapsed time. `time_last_event` becomes `sim_time`, and nothing else changes. |
| Inventory.OrderArrivalEvent | Inventory-Simulation/Code/inventory.cpp:76-79 | The level rises by exactly `amount` and event 1 becomes "never". Nothing else changes. |
| Inventory.DemandEvent | Inventory-Simulation/Code/inventory.cpp:81-84 | The level falls by a size in 1..N, namely the first table index whose entry exceeds the draw, and only event 2 is rescheduled. The event fails exactly when the draw is not below any entry. |
| Inventory.EvaluateEvent | Inventory-Simulation/Code/inventory.cpp:86-94 | Below `smalls`: `level + amount = bigs`, the cost rises by `setup + incremental*amount`, and event 1 is due after the uniform lag. Otherwise order state and cost are unchanged. Event 4 is always due one month later, and the level is untouched. |
| Inventory.Handle | Inventory-Simulation/Code/inventory.cpp:147-150 | Per kind: order arrival adds `amount` to the level and unschedules event 1. Demand takes the drawn size off the level and reschedules event 2. Evaluation keeps the level and schedules event 4 one month later. Below `smalls` it also orders up to `bigs`, adds `setup + incremental*amount` to the ordering cost, and schedules the delivery (event 1) after the uniform lag. At or above `smalls` it changes nothing else. Any other kind changes nothing. Each kind leaves every field it does not name unchanged. The dispatch fails exactly on a demand whose draw is not below any table entry. No handler touches the clock or the areas. |
| Inventory.Step | Inventory-Simulation/Code/inventory.cpp:143-150 | A pass fails with "event list empty" exactly when no event is eligible. Its only other failure is a demand whose draw runs off the table. Otherwise it dispatches the earliest kind and moves the clock to that kind's due time. Holding minus shortage grows by the level from before the event times the elapsed time. Apart from the clock and the areas, the new state is exactly what the selected handler makes of the old one. Order arrival adds `amount` and unschedules event 1. Demand takes the drawn size off the level and reschedules event 2. Evaluation below `smalls` orders up to `bigs`, pays for the order and schedules its delivery; every evaluation schedules the next one a month later. End of horizon changes nothing else. |
| Inventory.Run | Inventory-Simulation/Code/inventory.cpp:140-153 | A finished run dispatched end-of-horizon (3) last and no 3 before it, so the loop ends exactly when event 3 fires. It takes at most one pass per draw record. |
| Inventory.Simulate | Inventory-Simulation/Code/inventory.cpp:140-153 | A finished `simulate` dispatched end-of-horizon last and only last, with at most one pass per draw record. With `num_months > 0` and a first demand after time 0, the first event dispatched is the evaluation at time 0. |
| Inventory.RunStartsWithEvaluation | Inventory-Simulation/Code/inventory.cpp:49-52 | With `num_months > 0` and the first demand after time 0, a finished run from `initialize` dispatches the evaluation scheduled at time 0 first. |
| Inventory.StepPreservesValid | Inventory-Simulation/Code/inventory.cpp:143-150 | Every pass keeps the invariant. The clock never goes backward, and the areas and ordering cost never decrease. |
| Inventory.RunEndsAtHorizon | Inventory-Simulation/Code/inventory.cpp:140-151 | A finished run from a valid state ends with the clock at `num_months`, in a valid state, with no total below its start value. |
| Inventory.SimulateEndsAtHorizon | Inventory-Simulation/Code/inventory.cpp:140-153 | `simulate` from `initialize` ends, when it ends, at month `num_months` with a non-negative ordering cost. |
| Inventory.HorizonBeatsEvaluation | Inventory-Simulation/Code/inventory.cpp:143-151 | When end-of-horizon and evaluation are due together before anything else, 3 wins the tie. The run stops after that one dispatch, and no last evaluation happens. |
| Inventory.EvaluationPass | Inventory-Simulation/Code/inventory.cpp:86-94 | When the evaluation is due at whole month k, ahead of every other event, and the level is at or above `smalls`, a pass dispatches the evaluation at time k. It orders nothing, keeps the level and schedules the next evaluation at k + 1. |
| Inventory.RunEvaluatesMonthly | Inventory-Simulation/Code/inventory.cpp:140-153 | Runs make progress. From an evaluation due at month k, with no order pending, no demand before the horizon, the level at or above `smalls` and enough draws, the run finishes. Its log is one evaluation per remaining month followed by the end of the horizon, and it ends at time `num_months`. |
| Inventory.SimulateEvaluatesMonthly | Inventory-Simulation/Code/inventory.cpp:140-153 | With the initial level at or above `smalls`, the first demand after the horizon and enough draws, `simulate` finishes. It dispatches `num_months` evaluations and then the end of the horizon. |
| Inventory.AccumulationExample | Inventory-Simulation/Code/inventory.cpp:96-106 | A worked trace with level 5 on [0,2), -3 on [2,5) and 0 on [5,8) gives holding area 10 and shortage area 9. |
| SingleServerQueue.Initialize | SSQS-Simulation/Code/ssqs.cpp:37-54 | The clock and `time_last_event` start at 0. The server starts idle with an empty queue. The delayed count, the delay total, both areas and the three event counters start at 0. The first arrival is due after the drawn interarrival time, and no departure is scheduled. The initial state satisfies the queue invariant. |
| SingleServerQueue.UpdateTimeAvgStats | SSQS-Simulation/Code/ssqs.cpp:77-85 | The queue area grows by the pre-event `num_in_q` times the elapsed time. The busy area grows by the elapsed time exactly when the server was busy. Both are non-decreasing for non-negative elapsed time, and nothing else changes. |
| SingleServerQueue.Arrive | SSQS-Simulation/Code/ssqs.cpp:87-117 | Overflow happens exactly when the server is busy and the queue holds `Q_LIMIT`. Busy: `num_in_q` rises by 1 and the arrival time joins the tail of the FIFO. Idle: zero delay is added, one more customer is delayed, the server becomes busy, a departure is scheduled, and the queue is unchanged. The event and arrival counters each rise by 1. |
| SingleServerQueue.ShiftFrom | SSQS-Simulation/Code/ssqs.cpp:142-144 | After the shifting loop, slots i..n hold the values of slots i+1..n+1, and every other slot is unchanged. |
| SingleServerQueue.Depart | SSQS-Simulation/Code/ssqs.cpp:119-146 | Empty queue: the server goes idle and the departure becomes "never". Otherwise: `num_in_q` falls by 1, the delay `sim_time - time_arrival[1]` is added, one more customer is delayed, the waiting list loses exactly its front, and a departure is scheduled. The event and departure counters each rise by 1. |
| SingleServerQueue.Step | SSQS-Simulation/Code/ssqs.cpp:166-173 | Each pass advances the clock to the earliest due time and raises `event_counter` by 1. The queue and busy areas grow by the values from before the event times the elapsed time. Kind 1 runs `arrive`: the arrival counter rises, the next arrival is scheduled, and the delay total is unchanged. An idle server takes the customer at once and schedules its departure one service time later. A busy server keeps its departure time, and the customer joins the tail of the queue. Kind 2 runs `depart` and leaves the next arrival as it was: the departure counter rises. An empty queue makes the server idle with no departure and no delay added. Otherwise the front customer leaves the queue with its delay counted, and its departure is scheduled one service time later. The only failure besides an empty event list is an arrival at a full queue. |
| SingleServerQueue.Run | SSQS-Simulation/Code/ssqs.cpp:166-173 | The loop stops with at least `num_delays_required` customers delayed, and it does not run when that count is already reached. |
| SingleServerQueue.Simulate | SSQS-Simulation/Code/ssqs.cpp:157-173 | A finished `simulate` has delayed at least `num_delays_required` customers. With nothing required the loop does not run and the result is the initial state. With something required and no draws, the run cannot proceed. |
| SingleServerQueue.ArrivePreservesValid | SSQS-Simulation/Code/ssqs.cpp:87-117 | `arrive` keeps the invariant: 0 <= `num_in_q` <= `Q_LIMIT`, a waiting customer implies a busy server, the counters are conserved, and the queue is in FIFO order of past arrival times. |
| SingleServerQueue.DepartPreservesValid | SSQS-Simulation/Code/ssqs.cpp:119-146 | `depart` on a busy server keeps the same invariant, and the delay it adds is never negative. |
| SingleServerQueue.StepPreservesValid | SSQS-Simulation/Code/ssqs.cpp:166-173 | A pass keeps the invariant and never moves the clock back. It never decreases the total delay and delays at most one more customer. |
| SingleServerQueue.RunReachesExactCount | SSQS-Simulation/Code/ssqs.cpp:166-173 | A finished run from a valid state that had not yet reached the threshold stops with exactly `num_delays_required` customers delayed. |
| SingleServerQueue.SimulateDelaysExactly | SSQS-Simulation/Code/ssqs.cpp:157-173 | `simulate` from `initialize` with a non-negative requirement ends, when it ends, with exactly `num_delays_required` customers delayed, in a valid state. |
| SingleServerQueue.TwoCustomersWithoutWaiting | SSQS-Simulation/Code/ssqs.cpp:157-173 | Runs make progress. When the first service ends before the second arrival, `simulate` with two delays required finishes after three events (arrival, departure, arrival). Two customers are delayed, the total delay is zero, and the run ends at the second arrival. |
| SingleServerQueue.FirstArrivalIsNotDelayed | SSQS-Simulation/Code/ssqs.cpp:107-116 | With one delay required, the first arrival finds the server idle and incurs zero delay. The queue stays empty, the server turns busy, and its departure is due one service time later. |
| SingleServerQueue.ArrivalWinsTie | SSQS-Simulation/Code/ssqs.cpp:57-75 | An arrival and a departure due together: the arrival is handled. |
| Secretary.MinOf | Monte-Carlo-Simulation/Code/secreteary_problem.py:18 | `min` returns an element of the list that is no larger than any element. |
| Secretary.FirstBeater | Monte-Carlo-Simulation/Code/secreteary_problem.py:19-22 | The loop breaks at the first later candidate below the standard, and everyone between the sample and that candidate is at or above it. It finds nobody exactly when every later candidate is at or above the standard. |
| Secretary.Choose | Monte-Carlo-Simulation/Code/secreteary_problem.py:15-18 | With a non-empty sample, the standard is an element of the first m candidates (all of them when there are fewer) and no larger than any of them. With no candidates, `min` fails (an empty-standard error), and only then. |
| Secretary.ChosenIsFirstBeaterOrWorst | Monte-Carlo-Simulation/Code/secreteary_problem.py:17-23 | `chosen` is either the first candidate after the sample who is below the standard, with everyone between them at or above the standard, or `n` when every later candidate is at or above the standard. |
| Secretary.IsSelectionSuccessful | Monte-Carlo-Simulation/Code/secreteary_problem.py:4-25 | If m = 0 the result is False. Otherwise it fails exactly on an empty list, with the empty-standard error, and its result is exactly `chosen <= s`. |
| Secretary.CountSuccesses | Monte-Carlo-Simulation/Code/secreteary_problem.py:37-39 | The success count never exceeds the number of trials. |
| Secretary.Rate | Monte-Carlo-Simulation/Code/secreteary_problem.py:40 | The success rate lies in [0, 1], and multiplied by the number of trials it gives back the count. |
| Secretary.SecretarySimulation | Monte-Carlo-Simulation/Code/secreteary_problem.py:28-40 | The loop's count equals the number of successful trials and stays within 0..`num_trials`. Zero trials (a division by zero) and a failing trial are errors, and only these are. Zero trials give the no-trials error. A trial with no candidates when a sample is asked for gives the empty-standard error. |
| Secretary.CountTrial | Monte-Carlo-Simulation/Code/secreteary_problem.py:38-39 | One pass of the counting loop adds one to the count of the trials so far exactly when the trial succeeds. It fails exactly when a sample is asked for and the trial has no candidates, and then with the empty-standard error. |
| Secretary.CountIsNumberOfSuccesses | Monte-Carlo-Simulation/Code/secreteary_problem.py:37-39 | The running count equals the size of the set of successful trial indices. |
| Secretary.WorstChosenIffBestInSample | Monte-Carlo-Simulation/Code/secreteary_problem.py:18-23 | Both directions, on a shuffle of 1..n with m > 0: `chosen = n` exactly when rank 1 lies in the first m positions. |
| Secretary.ChosenIsARank | Monte-Carlo-Simulation/Code/secreteary_problem.py:17-23 | On a shuffle of 1..n with m > 0, the chosen rank lies in 1..n. |

## Left out

- File and stream I/O is not modelled. This covers `main`, reading `in.txt`, the `event_orders.txt` trace, and `generate_report` with its formatting and divisions. They only read input and write output, and no simulated state depends on them. The end-of-horizon dispatch leaves the state unchanged, because its only action is writing the report.
- Random generation is not modelled. `longrand` and `util.h` are not part of this model, and neither are `expon` (which needs a logarithm), `random.shuffle` or `random.choices`. Each exponential value is passed in already drawn. Each uniform `u` is passed in, and `uniform` and `random_integer` are computed from it. The candidate order is an input sequence.
- The order in which the single random stream is consumed is not modelled. Each dispatched event takes one record of draws and ignores the fields it does not use.
- Inventory.Run: the loop in inventory.cpp can run forever. The model runs over a finite list of draw records, and running out of records is an extra error, `DrawsExhausted`.
- SingleServerQueue.Run: the same finite-draws bound applies, with the same `DrawsExhausted` error.
- The C++ `int` fields are unbounded integers here. These are `inventory_level`, `amount`, `num_in_q`, `num_custs_delayed` and the three event counters. Signed 32-bit overflow is outside the model.
- `double` and `float` rounding is not modelled. Times, costs and areas are exact `real`s. The queue program's single-precision `float` is treated the same way.
- `random_integer` reads past the end of its table when `u` is not below any entry. The model returns no outcome, which the demand handler reports as an error. It does not clamp the index to N, because the code does not do that either.
- The "empty event list" test follows the code: any due time at or above `1e29` counts as unscheduled, not only the value "never" (`1e30`).
- The queue keeps the fixed array of ssqs.cpp, with `Q_LIMIT + 1` slots and an overflow check. It is not a growable sequence.
- The inventory's `amount` and the queue's `time_arrival` are left uninitialised by inventory.cpp and ssqs.cpp. The model starts them at 0. Neither is read before it is written.
- The holding and shortage cost rates are read only by the report, so they are not part of `Inventory.Config`. `num_values_demand` is implied by the table length.
- `num_delays_required` is a `float` in the queue program's `main` and an `int` in the class. The model uses an integer.
- Secretary.Rate: Python's float division `successful / num_trials` is an exact `real` quotient. Float rounding is not modelled.
- In the secretary rule, `chosen = n` when no later candidate beats the standard is modelled as written. The last candidate's actual rank is not used.
- `Monte-Carlo-Simulation/Code/nuclear-fission.py` is random sampling and file output, so it is not part of this model. The matplotlib plotting in the secretary program is not modelled either.
- SingleServerQueue.DepartPreservesValid assumes a busy server. This holds whenever `timing` dispatches a departure, because an idle server has its departure at "never".

=== FILE: arith.dfy ===
/** Facts about real arithmetic that the time-weighted statistics and the
    uniform variate rely on. */
module Arith {
  /** A product of two non-negative reals is non-negative. */
  lemma MulNonNegative(x: real, y: real)
    requires 0.0 <= x
    ensures 0.0 <= y ==> 0.0 <= x * y
  {
  }
}

=== FILE: event_list.dfy ===
/** The event list shared by both next-event simulations: one due time per event
    kind, kind k (numbered from 1) stored at index k - 1. A time at or above
    `Threshold` is never selected; `Never` is the value used to unschedule a kind. */
module EventList {
  import opened Results

  /** The due time that marks an event kind as not scheduled. */
  const Never: real := 1.0e30

  /** `timing` starts its scan with this bound, so only times strictly below it can be picked. */
  const Threshold: real := 1.0e29

  /** The outcome of a successful scan: the kind to dispatch and the time it is due. */
  datatype Next = Next(kind: nat, time: real)

  /** Kind `k` is the one the scan must select: it is due before the threshold,
      no kind is due earlier, and every lower-numbered kind is due strictly later. */
  ghost predicate IsEarliest(due: seq<real>, k: nat)
  {
    && 1 <= k <= |due|
    && due[k - 1] < Threshold
    && (forall j :: 0 <= j < |due| ==> due[k - 1] <= due[j])
    && (forall j :: 0 <= j < k - 1 ==> due[k - 1] < due[j])
  }

  /** No kind is due before the threshold: nothing can ever be dispatched. */
  ghost predicate AllNever(due: seq<real>)
  {
    forall j :: 0 <= j < |due| ==> due[j] >= Threshold
  }

  /** What the scan loop knows after looking at the first `i` entries, holding
      the running minimum `minTime` and its kind `kind` (0 while none was found). */
  ghost predicate ScanSoFar(due: seq<real>, i: nat, minTime: real, kind: nat)
  {
    && i <= |due|
    && (kind == 0 ==> minTime == Threshold && forall j :: 0 <= j < i ==> due[j] >= Threshold)
    && (kind != 0 ==>
          && 1 <= kind <= i
          && minTime == due[kind - 1]
          && minTime < Threshold
          && (forall j :: 0 <= j < i ==> minTime <= due[j])
          && (forall j :: 0 <= j < kind - 1 ==> minTime < due[j]))
  }

  /** The scan loop of `timing`, from index `i` on: an entry replaces the running
      minimum only when it is strictly smaller, so the first of equal minima stays. */
  function Scan(due: seq<real>, i: nat, minTime: real, kind: nat): (r: (real, nat))
    requires ScanSoFar(due, i, minTime, kind)
    ensures ScanSoFar(due, |due|, r.0, r.1)
    decreases |due| - i
  {
    if i == |due| then (minTime, kind)
    else if due[i] < minTime then Scan(due, i + 1, due[i], i + 1)
    else Scan(due, i + 1, minTime, kind)
  }

  /** `timing`: the kind with the strictly smallest due time below the threshold,
      ties going to the lowest kind; `None` when every kind is at or above the
      threshold (inventory.cpp and ssqs.cpp then report an empty event list and exit). */
  function Timing(due: seq<real>): (r: Option<Next>)
    ensures r.None? <==> AllNever(due)
    ensures r.Some? ==> IsEarliest(due, r.value.kind) && r.value.time == due[r.value.kind - 1]
  {
    var (t, k) := Scan(due, 0, Threshold, 0);
    if k == 0 then None else Some(Next(k, t))
  }

  /** `Timing` selects exactly the kinds that satisfy `IsEarliest`, in both directions. */
  lemma TimingSelectsEarliest(due: seq<real>, k: nat)
    ensures Timing(due) == Some(Next(k, if 1 <= k <= |due| then due[k - 1] else 0.0)) <==> IsEarliest(due, k)
  {
  }

  /** Two kinds due at the same, earliest time: the lower-numbered one is dispatched. */
  lemma TieGoesToLowerKind(due: seq<real>, a: nat, b: nat)
    requires 1 <= a < b <= |due|
    requires due[a - 1] == due[b - 1] < Threshold
    requires forall j :: 0 <= j < |due| ==> due[a - 1] <= due[j]
    ensures Timing(due).Some? && Timing(due).value.kind <= a
    ensures Timing(due).value.kind != b
  {
  }

  /** The clock never moves backward: when nothing is due before `now`, the
      selected time is at least `now`. */
  lemma TimingNeverGoesBack(due: seq<real>, now: real)
    requires forall j :: 0 <= j < |due| ==> due[j] >= now
    requires Timing(due).Some?
    ensures Timing(due).value.time >= now
  {
  }
}

=== FILE: inventory.dfy ===
/** The single-product inventory simulation with an (s, S) reorder policy.
    Event kinds: 1 order arrival, 2 demand, 3 end of horizon, 4 monthly evaluation. */
module Inventory {
  import opened Results
  import EventList
  import Variates
  import Arith

  const NumEvents: nat := 4
  const OrderArrival: nat := 1
  const Demand: nat := 2
  const EndOfHorizon: nat := 3
  const Evaluate: nat := 4

  /** The inputs the event handlers read: the policy (`smalls`, `bigs`), the horizon
      in months, the ordering costs, the delivery lag range and the cumulative
      demand-size table (outcome i at index i, index 0 unused). */
  datatype Config = Config(
    initialLevel: int,
    numMonths: int,
    smalls: int,
    bigs: int,
    setupCost: real,
    incrementalCost: real,
    minLag: real,
    maxLag: real,
    demandCdf: seq<real>)

  /** The simulation state; `due` is the event list, kind k at index k - 1. */
  datatype State = State(
    simTime: real,
    timeLastEvent: real,
    level: int,
    amount: int,
    totalOrderingCost: real,
    areaHolding: real,
    areaShortage: real,
    due: seq<real>)

  /** The random draws one dispatched event may consume: the uniform that picks a
      demand size, the exponential time to the next demand, the uniform that
      places the delivery lag. A handler ignores the draws it does not use. */
  datatype Draws = Draws(demandU: real, interdemand: real, lagU: real)

  datatype Failure =
    | EventListEmpty(at: real)
    | DemandTableExhausted(at: real)
    | DrawsExhausted

  /** One pass of the loop: the kind that was dispatched and the state after it. */
  datatype Dispatched = Dispatched(kind: nat, state: State)

  /** A finished run: the final state and the kinds dispatched, in order. */
  datatype Finished = Finished(state: State, kinds: seq<nat>)

  /** Parameter values for which the policy makes sense: a non-negative horizon,
      costs and lags, and a reorder point not above the order-up-to level. */
  ghost predicate ConfigOk(cfg: Config)
  {
    && cfg.numMonths >= 0
    && cfg.smalls <= cfg.bigs
    && cfg.setupCost >= 0.0
    && cfg.incrementalCost >= 0.0
    && 0.0 <= cfg.minLag <= cfg.maxLag
  }

  /** Draws as the generators produce them: a non-negative exponential and a uniform in [0, 1]. */
  ghost predicate DrawsOk(d: Draws)
  {
    d.interdemand >= 0.0 && 0.0 <= d.lagU <= 1.0
  }

  ghost predicate AllDrawsOk(draws: seq<Draws>)
  {
    forall i :: 0 <= i < |draws| ==> DrawsOk(draws[i])
  }

  /** The invariant between events: the horizon event stays at `numMonths`, no
      event is due in the past, statistics are up to date and the totals are non-negative. */
  ghost predicate Valid(cfg: Config, s: State)
  {
    && |s.due| == NumEvents
    && s.due[EndOfHorizon - 1] == cfg.numMonths as real
    && s.simTime < EventList.Threshold
    && (forall j :: 0 <= j < |s.due| ==> s.due[j] >= s.simTime)
    && s.timeLastEvent == s.simTime
    && s.areaHolding >= 0.0
    && s.areaShortage >= 0.0
    && s.totalOrderingCost >= 0.0
  }

  /** `initialize`: clock and statistics at zero, no order outstanding, the first
      demand after `firstInterdemand`, the horizon at `numMonths` and an evaluation
      at time 0. inventory.cpp leaves `amount` unset; it starts at 0 here. */
  function Initialize(cfg: Config, firstInterdemand: real): (s: State)
    ensures ConfigOk(cfg) && firstInterdemand >= 0.0 ==> Valid(cfg, s)
    ensures s.simTime == 0.0 && s.timeLastEvent == 0.0
    ensures s.level == cfg.initialLevel
    ensures s.areaHolding == 0.0 && s.areaShortage == 0.0 && s.totalOrderingCost == 0.0
    ensures s.due == [EventList.Never, s.simTime + firstInterdemand, cfg.numMonths as real, s.simTime]
  {
    State(0.0, 0.0, cfg.initialLevel, 0, 0.0, 0.0, 0.0,
          [EventList.Never, 0.0 + firstInterdemand, cfg.numMonths as real, 0.0])
  }

  /** Holding minus shortage area accrued up to time `t`: the level since the last
      update held over the interval from that update to `t`. */
  function NetAreaAt(s: State, t: real): real
  {
    s.areaHolding - s.areaShortage + s.level as real * (t - s.timeLastEvent)
  }

  /** `update_time_avg_stats`: integrates the pre-event level over the time since
      the last update, positive part into holding and negative part into shortage. */
  function UpdateTimeAvgStats(s: State): (r: State)
    ensures r == s.(timeLastEvent := s.simTime, areaHolding := r.areaHolding, areaShortage := r.areaShortage)
    ensures r.areaHolding - r.areaShortage
         == s.areaHolding - s.areaShortage + s.level as real * (s.simTime - s.timeLastEvent)
    ensures s.level >= 0 ==> r.areaShortage == s.areaShortage
    ensures s.level <= 0 ==> r.areaHolding == s.areaHolding
    ensures s.simTime >= s.timeLastEvent ==> r.areaHolding >= s.areaHolding && r.areaShortage >= s.areaShortage
  {
    var dt := s.simTime - s.timeLastEvent;
    var s1 := s.(timeLastEvent := s.simTime);
    if s.level > 0 then
      Arith.MulNonNegative(s.level as real, dt);
      s1.(areaHolding := s.areaHolding + s.level as real * dt)
    else if s.level < 0 then
      Arith.MulNonNegative(-s.level as real, dt);
      s1.(areaShortage := s.areaShortage - s.level as real * dt)
    else
      s1
  }

  /** `order_arrival`: the outstanding amount is added to the level and the order
      event is unscheduled; nothing else changes. */
  function OrderArrivalEvent(s: State): (r: State)
    requires |s.due| == NumEvents
    ensures |r.due| == NumEvents
    ensures r.level - s.level == s.amount
    ensures r.due[OrderArrival - 1] == EventList.Never
    ensures r == s.(level := r.level, due := s.due[OrderArrival - 1 := r.due[OrderArrival - 1]])
  {
    s.(level := s.level + s.amount, due := s.due[OrderArrival - 1 := EventList.Never])
  }

  /** `demand`: a demand size is drawn from the cumulative table and taken off
      the level, and the next demand is scheduled; nothing else changes. Fails
      when the draw is not below any table entry (inventory.cpp reads past the table). */
  function DemandEvent(cfg: Config, s: State, d: Draws): (r: Result<State, Failure>)
    requires |s.due| == NumEvents
    ensures r.Err? <==> forall j :: 1 <= j < |cfg.demandCdf| ==> d.demandU >= cfg.demandCdf[j]
    ensures r.Err? ==> r.error == DemandTableExhausted(s.simTime)
    ensures r.Ok? ==>
      var size := s.level - r.value.level;
      && 1 <= size < |cfg.demandCdf|
      && d.demandU < cfg.demandCdf[size]
      && (forall j :: 1 <= j < size ==> d.demandU >= cfg.demandCdf[j])
    ensures r.Ok? ==> r.value == s.(level := r.value.level, due := s.due[Demand - 1 := s.simTime + d.interdemand])
  {
    match Variates.RandomInteger(cfg.demandCdf, d.demandU)
    case None => Err(DemandTableExhausted(s.simTime))
    case Some(size) =>
      Ok(s.(level := s.level - size, due := s.due[Demand - 1 := s.simTime + d.interdemand]))
  }

  /** `evaluate`: below the reorder point, order up to `bigs`, pay the setup and
      per-item cost and schedule the delivery after a uniform lag; in every case
      the next evaluation is due one month later. */
  function EvaluateEvent(cfg: Config, s: State, d: Draws): (r: State)
    requires |s.due| == NumEvents
    ensures |r.due| == NumEvents
    ensures r.due[Evaluate - 1] == s.simTime + 1.0
    ensures r.level == s.level
    ensures s.level < cfg.smalls ==>
      && s.level + r.amount == cfg.bigs
      && r.totalOrderingCost == s.totalOrderingCost + cfg.setupCost + cfg.incrementalCost * r.amount as real
      && r.due == s.due[OrderArrival - 1 := s.simTime + Variates.Uniform(cfg.minLag, cfg.maxLag, d.lagU)]
                       [Evaluate - 1 := s.simTime + 1.0]
    ensures s.level >= cfg.smalls ==> r == s.(due := s.due[Evaluate - 1 := s.simTime + 1.0])
    ensures r == s.(amount := r.amount, totalOrderingCost := r.totalOrderingCost, due := r.due)
  {
    var s1 :=
      if s.level < cfg.smalls then
        var amount := cfg.bigs - s.level;
        s.(amount := amount,
           totalOrderingCost := s.totalOrderingCost + (cfg.setupCost + cfg.incrementalCost * amount as real),
           due := s.due[OrderArrival - 1 := s.simTime + Variates.Uniform(cfg.minLag, cfg.maxLag, d.lagU)])
      else s;
    s1.(due := s1.due[Evaluate - 1 := s.simTime + 1.0])
  }

  /** `s` with the clock at `a`'s time and the areas taken from `a`: the part of a
      pass that belongs to `timing` and `update_time_avg_stats`, not to a handler. */
  function Clocked(s: State, a: State): State
  {
    s.(simTime := a.simTime, timeLastEvent := a.simTime, areaHolding := a.areaHolding, areaShortage := a.areaShortage)
  }

  /** The dispatch of `simulate`: kinds 1, 2 and 4 go to their handlers; the end
      of the horizon only writes the report, which leaves the state as it is. */
  function Handle(cfg: Config, s: State, kind: nat, d: Draws): (r: Result<State, Failure>)
    requires |s.due| == NumEvents
    ensures r.Err? <==> kind == Demand && Variates.RandomInteger(cfg.demandCdf, d.demandU).None?
    ensures r.Err? ==> r.error == DemandTableExhausted(s.simTime)
    ensures r.Ok? ==>
      && |r.value.due| == NumEvents
      && r.value.simTime == s.simTime && r.value.timeLastEvent == s.timeLastEvent
      && r.value.areaHolding == s.areaHolding && r.value.areaShortage == s.areaShortage
    ensures kind == OrderArrival ==>
      r == Ok(s.(level := s.level + s.amount, due := s.due[OrderArrival - 1 := EventList.Never]))
    ensures r.Ok? && kind == Demand ==>
      && Variates.RandomInteger(cfg.demandCdf, d.demandU) == Some(s.level - r.value.level)
      && r.value == s.(level := r.value.level, due := s.due[Demand - 1 := s.simTime + d.interdemand])
    ensures r.Ok? && kind == Evaluate ==>
      r.value == s.(amount := r.value.amount, totalOrderingCost := r.value.totalOrderingCost, due := r.value.due)
    ensures r.Ok? && kind == Evaluate && s.level < cfg.smalls ==>
      && s.level + r.value.amount == cfg.bigs
      && r.value.totalOrderingCost == s.totalOrderingCost + cfg.setupCost + cfg.incrementalCost * r.value.amount as real
      && r.value.due == s.due[OrderArrival - 1 := s.simTime + Variates.Uniform(cfg.minLag, cfg.maxLag, d.lagU)]
                             [Evaluate - 1 := s.simTime + 1.0]
    ensures r.Ok? && kind == Evaluate && s.level >= cfg.smalls ==>
      r.value == s.(due := s.due[Evaluate - 1 := s.simTime + 1.0])
    ensures kind !in {OrderArrival, Demand, Evaluate} ==> r == Ok(s)
  {
    if kind == OrderArrival then Ok(OrderArrivalEvent(s))
    else if kind == Demand then DemandEvent(cfg, s, d)
    else if kind == Evaluate then Ok(EvaluateEvent(cfg, s, d))
    else Ok(s)
  }

  /** One pass of the loop body: `timing` picks the next kind and advances the
      clock to its due time, the statistics integrate the elapsed interval, and
      the kind is dispatched. Apart from the clock and the areas, the new state
      is exactly what the selected handler makes of the old one. */
  function Step(cfg: Config, s: State, d: Draws): (r: Result<Dispatched, Failure>)
    requires |s.due| == NumEvents
    ensures EventList.AllNever(s.due) <==> r == Err(EventListEmpty(s.simTime))
    ensures r.Err? && !EventList.AllNever(s.due) ==>
      && EventList.Timing(s.due).value.kind == Demand
      && Variates.RandomInteger(cfg.demandCdf, d.demandU).None?
    ensures r.Ok? ==>
      && EventList.IsEarliest(s.due, r.value.kind)
      && r.value.state.simTime == s.due[r.value.kind - 1]
      && r.value.state.timeLastEvent == r.value.state.simTime
      && |r.value.state.due| == NumEvents
    ensures r.Ok? ==>
      var t := r.value.state.simTime;
      && r.value.state.areaHolding - r.value.state.areaShortage == NetAreaAt(s, t)
      && (s.level >= 0 ==> r.value.state.areaShortage == s.areaShortage)
      && (s.level <= 0 ==> r.value.state.areaHolding == s.areaHolding)
    ensures r.Ok? && r.value.kind == OrderArrival ==>
      var a := r.value.state;
      a == Clocked(s, a).(level := s.level + s.amount, due := s.due[OrderArrival - 1 := EventList.Never])
    ensures r.Ok? && r.value.kind == Demand ==>
      var a := r.value.state;
      && Variates.RandomInteger(cfg.demandCdf, d.demandU) == Some(s.level - a.level)
      && a == Clocked(s, a).(level := a.level, due := s.due[Demand - 1 := a.simTime + d.interdemand])
    ensures r.Ok? && r.value.kind == Evaluate ==>
      var a := r.value.state;
      a == Clocked(s, a).(amount := a.amount, totalOrderingCost := a.totalOrderingCost, due := a.due)
    ensures r.Ok? && r.value.kind == Evaluate && s.level < cfg.smalls ==>
      var a := r.value.state;
      && s.level + a.amount == cfg.bigs
      && a.totalOrderingCost == s.totalOrderingCost + cfg.setupCost + cfg.incrementalCost * a.amount as real
      && a.due == s.due[OrderArrival - 1 := a.simTime + Variates.Uniform(cfg.minLag, cfg.maxLag, d.lagU)]
                       [Evaluate - 1 := a.simTime + 1.0]
    ensures r.Ok? && r.value.kind == Evaluate && s.level >= cfg.smalls ==>
      var a := r.value.state;
      a == Clocked(s, a).(due := s.due[Evaluate - 1 := a.simTime + 1.0])
    ensures r.Ok? && r.value.kind == EndOfHorizon ==>
      r.value.state == Clocked(s, r.value.state)
  {
    match EventList.Timing(s.due)
    case None => Err(EventListEmpty(s.simTime))
    case Some(next) =>
      var s1 := UpdateTimeAvgStats(s.(simTime := next.time));
      assert s1.areaHolding - s1.areaShortage == NetAreaAt(s, s1.simTime);
      assert s1 == Clocked(s, s1);
      match Handle(cfg, s1, next.kind, d)
      case Err(e) => Err(e)
      case Ok(s2) =>
        assert Clocked(s, s2) == Clocked(s1, s2).(level := s.level, amount := s.amount,
                                                  totalOrderingCost := s.totalOrderingCost, due := s.due);
        Ok(Dispatched(next.kind, s2))
  }

  /** A log of dispatched kinds in which the end of the horizon comes last and only last. */
  ghost predicate EndsAtHorizon(kinds: seq<nat>)
  {
    && |kinds| >= 1
    && kinds[|kinds| - 1] == EndOfHorizon
    && forall i :: 0 <= i < |kinds| - 1 ==> kinds[i] != EndOfHorizon
  }

  /** Dispatching another kind before a log that ends at the horizon keeps it so. */
  lemma DispatchBeforeHorizon(kind: nat, kinds: seq<nat>)
    requires kind != EndOfHorizon && EndsAtHorizon(kinds)
    ensures EndsAtHorizon([kind] + kinds)
  {
  }

  /** The `do ... while (next_event_type != 3)` loop, one draw record per pass.
      A run that ends reports every kind it dispatched: the last one is the end
      of the horizon and no earlier one is. Running out of draw records is an
      artefact of the model, which cannot take an unbounded random stream. */
  function Run(cfg: Config, s: State, draws: seq<Draws>): (r: Result<Finished, Failure>)
    requires |s.due| == NumEvents
    ensures r.Ok? ==> |r.value.kinds| <= |draws| && EndsAtHorizon(r.value.kinds)
    decreases |draws|
  {
    if |draws| == 0 then Err(DrawsExhausted)
    else
      match Step(cfg, s, draws[0])
      case Err(e) => Err(e)
      case Ok(next) =>
        if next.kind == EndOfHorizon then Ok(Finished(next.state, [EndOfHorizon]))
        else
          match Run(cfg, next.state, draws[1..])
          case Err(e) => Err(e)
          case Ok(rest) =>
            DispatchBeforeHorizon(next.kind, rest.kinds);
            Ok(Finished(rest.state, [next.kind] + rest.kinds))
  }

  /** A finished run begins with the kind its first pass dispatched. */
  lemma RunStartsWithFirstPass(cfg: Config, s: State, draws: seq<Draws>)
    requires |s.due| == NumEvents
    ensures Run(cfg, s, draws).Ok? ==>
      && Step(cfg, s, draws[0]).Ok?
      && Run(cfg, s, draws).value.kinds[0] == Step(cfg, s, draws[0]).value.kind
  {
  }

  /** With a positive horizon and a first demand after time 0, the first pass from
      `initialize` dispatches the evaluation due at time 0, and a finished run from
      there begins with it. */
  lemma RunStartsWithEvaluation(cfg: Config, firstInterdemand: real, draws: seq<Draws>)
    requires cfg.numMonths > 0 && firstInterdemand > 0.0
    ensures Run(cfg, Initialize(cfg, firstInterdemand), draws).Ok? ==>
      Run(cfg, Initialize(cfg, firstInterdemand), draws).value.kinds[0] == Evaluate
  {
    var s := Initialize(cfg, firstInterdemand);
    RunStartsWithFirstPass(cfg, s, draws);
    if |draws| > 0 {
      assert EventList.IsEarliest(s.due, Evaluate);
      EventList.TimingSelectsEarliest(s.due, Evaluate);
    }
  }

  /** `simulate`: initialise, then loop until the end of the horizon is dispatched.
      With a positive horizon and a first demand after time 0, the evaluation that
      `initialize` schedules at time 0 is the first event dispatched. */
  function Simulate(cfg: Config, firstInterdemand: real, draws: seq<Draws>): (r: Result<Finished, Failure>)
    ensures r.Ok? ==> |r.value.kinds| <= |draws| && EndsAtHorizon(r.value.kinds)
    ensures r.Ok? && cfg.numMonths > 0 && firstInterdemand > 0.0 ==> r.value.kinds[0] == Evaluate
  {
    if cfg.numMonths > 0 && firstInterdemand > 0.0 then
      RunStartsWithEvaluation(cfg, firstInterdemand, draws);
      Run(cfg, Initialize(cfg, firstInterdemand), draws)
    else
      Run(cfg, Initialize(cfg, firstInterdemand), draws)
  }

  /** Every pass keeps the invariant, never moves the clock backward and never
      decreases the areas or the ordering cost. */
  lemma StepPreservesValid(cfg: Config, s: State, d: Draws)
    requires ConfigOk(cfg) && Valid(cfg, s) && DrawsOk(d)
    requires Step(cfg, s, d).Ok?
    ensures Valid(cfg, Step(cfg, s, d).value.state)
    ensures Step(cfg, s, d).value.state.simTime >= s.simTime
    ensures Step(cfg, s, d).value.state.areaHolding >= s.areaHolding
    ensures Step(cfg, s, d).value.state.areaShortage >= s.areaShortage
    ensures Step(cfg, s, d).value.state.totalOrderingCost >= s.totalOrderingCost
  {
    var next := EventList.Timing(s.due).value;
    var s1 := UpdateTimeAvgStats(s.(simTime := next.time));
    assert s1.simTime == next.time < EventList.Threshold;
    assert forall j :: 0 <= j < NumEvents ==> s1.due[j] >= s1.simTime;
    if next.kind == Evaluate {
      Variates.UniformInRange(cfg.minLag, cfg.maxLag, d.lagU);
      if s1.level < cfg.smalls {
        Arith.MulNonNegative(cfg.incrementalCost, (cfg.bigs - s1.level) as real);
      }
    }
  }

  /** A run that finishes from a valid state stops with the clock at the horizon,
      in a valid state, with no total smaller than at the start. */
  lemma {:induction false} RunEndsAtHorizon(cfg: Config, s: State, draws: seq<Draws>)
    requires ConfigOk(cfg) && Valid(cfg, s) && AllDrawsOk(draws)
    ensures var r := Run(cfg, s, draws);
      r.Ok? ==>
        && r.value.state.simTime == cfg.numMonths as real
        && Valid(cfg, r.value.state)
        && r.value.state.areaHolding >= s.areaHolding
        && r.value.state.areaShortage >= s.areaShortage
        && r.value.state.totalOrderingCost >= s.totalOrderingCost
    decreases |draws|
  {
    if |draws| > 0 && Step(cfg, s, draws[0]).Ok? {
      var next := Step(cfg, s, draws[0]).value;
      StepPreservesValid(cfg, s, draws[0]);
      if next.kind != EndOfHorizon {
        assert AllDrawsOk(draws[1..]) by {
          forall i | 0 <= i < |draws[1..]| ensures DrawsOk(draws[1..][i]) {
            assert draws[1..][i] == draws[i + 1];
          }
        }
        RunEndsAtHorizon(cfg, next.state, draws[1..]);
      }
    }
  }

  /** `simulate` from `initialize`: a finished run ends at month `numMonths`. */
  lemma SimulateEndsAtHorizon(cfg: Config, firstInterdemand: real, draws: seq<Draws>)
    requires ConfigOk(cfg) && firstInterdemand >= 0.0 && AllDrawsOk(draws)
    requires Simulate(cfg, firstInterdemand, draws).Ok?
    ensures Simulate(cfg, firstInterdemand, draws).value.state.simTime == cfg.numMonths as real
    ensures Simulate(cfg, firstInterdemand, draws).value.state.totalOrderingCost >= 0.0
  {
    RunEndsAtHorizon(cfg, Initialize(cfg, firstInterdemand), draws);
  }

  /** When the end of the horizon and an evaluation fall due together before any
      order arrival or demand, the horizon wins the tie and the run finishes
      without that last evaluation. */
  lemma HorizonBeatsEvaluation(cfg: Config, s: State, draws: seq<Draws>)
    requires |s.due| == NumEvents && |draws| >= 1
    requires s.due[EndOfHorizon - 1] == s.due[Evaluate - 1] < EventList.Threshold
    requires s.due[OrderArrival - 1] > s.due[EndOfHorizon - 1]
    requires s.due[Demand - 1] > s.due[EndOfHorizon - 1]
    ensures Run(cfg, s, draws).Ok?
    ensures Run(cfg, s, draws).value.kinds == [EndOfHorizon]
    ensures Run(cfg, s, draws).value.state.level == s.level
    ensures Run(cfg, s, draws).value.state.due == s.due
  {
    EventList.TieGoesToLowerKind(s.due, EndOfHorizon, Evaluate);
  }

  /** A log of `n` evaluations in a row. */
  function Evaluations(n: nat): (kinds: seq<nat>)
    ensures |kinds| == n && forall i :: 0 <= i < n ==> kinds[i] == Evaluate
  {
    if n == 0 then [] else [Evaluate] + Evaluations(n - 1)
  }

  /** With the evaluation due strictly first, at month `k`, and the level at or
      above the reorder point, a pass evaluates without ordering: the clock moves
      to `k`, the next evaluation is due at `k + 1`, and the level is unchanged. */
  lemma EvaluationPass(cfg: Config, s: State, k: int, d: Draws)
    requires |s.due| == NumEvents && s.level >= cfg.smalls
    requires s.due[Evaluate - 1] == k as real < EventList.Threshold
    requires forall j :: 0 <= j < Evaluate - 1 ==> s.due[j] > k as real
    ensures Step(cfg, s, d).Ok?
    ensures Step(cfg, s, d).value.kind == Evaluate
    ensures Step(cfg, s, d).value.state.simTime == k as real
    ensures Step(cfg, s, d).value.state.level == s.level
    ensures Step(cfg, s, d).value.state.due == s.due[Evaluate - 1 := (k + 1) as real]
  {
    assert EventList.IsEarliest(s.due, Evaluate);
    EventList.TimingSelectsEarliest(s.due, Evaluate);
  }

  /** Runs do finish, one evaluation per month. With the next evaluation due at
      month `k`, no order outstanding, the level at or above the reorder point and
      the next demand after the horizon, a run with a draw record for every
      remaining pass evaluates at months k, k+1, ..., numMonths - 1 and then stops
      at the horizon, which wins its tie with the evaluation due at `numMonths`. */
  lemma {:induction false} RunEvaluatesMonthly(cfg: Config, s: State, k: int, draws: seq<Draws>)
    requires 0 <= k <= cfg.numMonths && (cfg.numMonths as real) < EventList.Threshold
    requires s.level >= cfg.smalls
    requires |s.due| == NumEvents
    requires s.due[OrderArrival - 1] == EventList.Never
    requires s.due[Demand - 1] > cfg.numMonths as real
    requires s.due[EndOfHorizon - 1] == cfg.numMonths as real
    requires s.due[Evaluate - 1] == k as real
    requires |draws| > cfg.numMonths - k
    ensures Run(cfg, s, draws).Ok?
    ensures Run(cfg, s, draws).value.kinds == Evaluations(cfg.numMonths - k) + [EndOfHorizon]
    ensures Run(cfg, s, draws).value.state.simTime == cfg.numMonths as real
    decreases cfg.numMonths - k
  {
    if k == cfg.numMonths {
      HorizonBeatsEvaluation(cfg, s, draws);
    } else {
      EvaluationPass(cfg, s, k, draws[0]);
      var next := Step(cfg, s, draws[0]).value;
      RunEvaluatesMonthly(cfg, next.state, k + 1, draws[1..]);
    }
  }

  /** `simulate` from `initialize` with the level at or above the reorder point and
      the first demand after the horizon: one evaluation per month, months 0 to
      numMonths - 1, then the end of the horizon. */
  lemma SimulateEvaluatesMonthly(cfg: Config, firstInterdemand: real, draws: seq<Draws>)
    requires 0 <= cfg.numMonths && (cfg.numMonths as real) < EventList.Threshold
    requires cfg.initialLevel >= cfg.smalls
    requires firstInterdemand > cfg.numMonths as real
    requires |draws| > cfg.numMonths
    ensures Simulate(cfg, firstInterdemand, draws).Ok?
    ensures Simulate(cfg, firstInterdemand, draws).value.kinds == Evaluations(cfg.numMonths) + [EndOfHorizon]
  {
    RunEvaluatesMonthly(cfg, Initialize(cfg, firstInterdemand), 0, draws);
  }

  /** A worked trace: level 5 from time 0, -3 from time 2, 0 from time 5, horizon
      at time 8. The holding area is 5 * 2 and the shortage area is 3 * 3. */
  lemma AccumulationExample(s: State)
    requires s.simTime == 0.0 && s.timeLastEvent == 0.0 && s.level == 5
    requires s.areaHolding == 0.0 && s.areaShortage == 0.0
    ensures var at2 := UpdateTimeAvgStats(s.(simTime := 2.0)).(level := -3);
            var at5 := UpdateTimeAvgStats(at2.(simTime := 5.0)).(level := 0);
            var at8 := UpdateTimeAvgStats(at5.(simTime := 8.0));
            at8.areaHolding == 10.0 && at8.areaShortage == 9.0
  {
  }
}

=== FILE: results.dfy ===
/** Failure-carrying results. The simulations abort with a process exit code on a
    fatal condition; the model returns the condition as an explicit error value. */
module Results {

  datatype Option<+T> = None | Some(value: T)

  datatype Result<+T, +E> = Ok(value: T) | Err(error: E)
}

=== FILE: secretary.dfy ===
/** The Monte-Carlo estimate for the secretary problem. Candidates are ranks
    (1 best, n worst) in interview order; the shuffled order is a parameter. */
module Secretary {
  import opened Results

  datatype Failure =
    | EmptyStandard  // `min` of an empty sample raises an error
    | NoTrials       // the success rate divides by a trial count of zero

  /** The outcome of one selection: the best rank in the sample and the rank chosen. */
  datatype Selection = Selection(standard: int, chosen: int)

  /** The success count of a batch of trials, and the rate it gives. */
  datatype Tally = Tally(successes: nat, rate: real)

  /** A shuffle of the ranks 1..n: n values, all ranks, every rank present
      (so each rank appears exactly once). */
  ghost predicate IsRankPermutation(candidates: seq<int>, n: int)
  {
    && |candidates| == n
    && (forall i :: 0 <= i < |candidates| ==> 1 <= candidates[i] <= n)
    && (forall rank :: 1 <= rank <= n ==> rank in candidates)
  }

  /** The smallest element of a non-empty list, as Python's `min` returns it. */
  function MinOf(xs: seq<int>): (m: int)
    requires |xs| > 0
    ensures m in xs
    ensures forall i :: 0 <= i < |xs| ==> m <= xs[i]
  {
    if |xs| == 1 then xs[0]
    else
      var rest := MinOf(xs[1..]);
      if xs[0] <= rest then xs[0] else rest
  }

  /** The interviewing loop from position `i` on: the position of the first
      candidate strictly better than `standard`, the point where the loop breaks. */
  function FirstBeater(candidates: seq<int>, i: nat, standard: int): (r: Option<nat>)
    ensures r.Some? ==> i <= r.value < |candidates| && candidates[r.value] < standard
    ensures r.Some? ==> forall k :: i <= k < r.value ==> candidates[k] >= standard
    ensures r.None? <==> forall k :: i <= k < |candidates| ==> candidates[k] >= standard
    decreases |candidates| - i
  {
    if i >= |candidates| then None
    else if candidates[i] < standard then Some(i)
    else FirstBeater(candidates, i + 1, standard)
  }

  /** The sample is the first `m` candidates, or all of them when there are fewer. */
  function SampleSize(candidates: seq<int>, m: nat): nat
  {
    if m <= |candidates| then m else |candidates|
  }

  /** The selection rule for a non-empty sample: the standard is the best rank
      in the sample, and the chosen rank is the first later candidate who beats
      it, or the worst rank `n` when nobody does. */
  function Choose(n: int, m: nat, candidates: seq<int>): (r: Result<Selection, Failure>)
    requires m > 0
    ensures r.Err? <==> |candidates| == 0
    ensures r.Err? ==> r.error == EmptyStandard
    ensures r.Ok? ==>
      var k := SampleSize(candidates, m);
      && r.value.standard in candidates[..k]
      && (forall i :: 0 <= i < k ==> r.value.standard <= candidates[i])
  {
    if |candidates| == 0 then Err(EmptyStandard)
    else
      var standard := MinOf(candidates[..SampleSize(candidates, m)]);
      match FirstBeater(candidates, m, standard)
      case Some(j) => Ok(Selection(standard, candidates[j]))
      case None => Ok(Selection(standard, n))
  }

  /** The chosen rank is the first candidate after the sample who beats the
      standard, everyone in between being no better than the standard, or the
      worst rank `n` when nobody after the sample beats it. */
  lemma ChosenIsFirstBeaterOrWorst(n: int, m: nat, candidates: seq<int>)
    requires m > 0 && |candidates| > 0
    ensures var sel := Choose(n, m, candidates).value;
      || (exists j :: m <= j < |candidates|
            && candidates[j] < sel.standard
            && sel.chosen == candidates[j]
            && (forall i :: m <= i < j ==> candidates[i] >= sel.standard))
      || (sel.chosen == n
            && forall i :: m <= i < |candidates| ==> candidates[i] >= sel.standard)
  {
  }

  /** `is_selection_successful`: with no sample the answer is False; otherwise it
      is whether the chosen rank is among the top `s`. */
  function IsSelectionSuccessful(n: int, s: int, m: nat, candidates: seq<int>): (r: Result<bool, Failure>)
    ensures m == 0 ==> r == Ok(false)
    ensures m > 0 ==> (r.Err? <==> |candidates| == 0)
    ensures r.Err? ==> r.error == EmptyStandard
    ensures m > 0 && r.Ok? ==> r.value == (Choose(n, m, candidates).value.chosen <= s)
  {
    if m == 0 then Ok(false)
    else
      match Choose(n, m, candidates)
      case Err(e) => Err(e)
      case Ok(sel) => Ok(sel.chosen <= s)
  }

  /** Whether one trial counts as a success. */
  predicate Succeeds(n: int, s: int, m: nat, candidates: seq<int>)
  {
    IsSelectionSuccessful(n, s, m, candidates) == Ok(true)
  }

  /** The number of successful trials in a batch, counted from the front. */
  function CountSuccesses(n: int, s: int, m: nat, trials: seq<seq<int>>): (c: nat)
    ensures c <= |trials|
  {
    if |trials| == 0 then 0
    else
      CountSuccesses(n, s, m, trials[..|trials| - 1])
        + (if Succeeds(n, s, m, trials[|trials| - 1]) then 1 else 0)
  }

  /** Some trial has no candidates although a sample is asked for. */
  ghost predicate HasEmptyTrial(m: nat, trials: seq<seq<int>>)
  {
    m > 0 && exists i :: 0 <= i < |trials| && |trials[i]| == 0
  }

  /** `secretary_simulation`: run every trial in order, counting successes, and
      divide by the number of trials. A failing trial stops the run; no trials
      at all is a division by zero. */
  method SecretarySimulation(n: int, s: int, m: nat, trials: seq<seq<int>>) returns (r: Result<Tally, Failure>)
    ensures r.Err? <==> |trials| == 0 || HasEmptyTrial(m, trials)
    ensures |trials| == 0 ==> r == Err(NoTrials)
    ensures HasEmptyTrial(m, trials) ==> r == Err(EmptyStandard)
    ensures r.Ok? ==> r.value.successes == CountSuccesses(n, s, m, trials)
    ensures r.Ok? ==> r.value.successes <= |trials|
    ensures r.Ok? ==> r.value.rate == Rate(r.value.successes, |trials|)
  {
    var successful: nat := 0;
    var i := 0;
    while i < |trials|
      invariant 0 <= i <= |trials|
      invariant successful == CountSuccesses(n, s, m, trials[..i])
      invariant m > 0 ==> forall k :: 0 <= k < i ==> |trials[k]| > 0
    {
      var next := CountTrial(n, s, m, trials, i, successful);
      if next.Err? {
        return Err(next.error);
      }
      successful := next.value;
      i := i + 1;
    }
    assert trials[..i] == trials;
    if |trials| == 0 {
      return Err(NoTrials);
    }
    var rate := Rate(successful, |trials|);
    return Ok(Tally(successful, rate));
  }

  /** One pass of the counting loop: run trial `i` and add it to the running count. */
  method CountTrial(n: int, s: int, m: nat, trials: seq<seq<int>>, i: nat, successful: nat) returns (r: Result<nat, Failure>)
    requires i < |trials| && successful == CountSuccesses(n, s, m, trials[..i])
    ensures r.Err? <==> m > 0 && |trials[i]| == 0
    ensures r.Err? ==> HasEmptyTrial(m, trials) && r.error == EmptyStandard
    ensures r.Ok? ==> r.value == CountSuccesses(n, s, m, trials[..i + 1])
  {
    var outcome := IsSelectionSuccessful(n, s, m, trials[i]);
    if outcome.Err? {
      return Err(outcome.error);
    }
    CountOneMore(n, s, m, trials, i);
    return Ok(if outcome.value then successful + 1 else successful);
  }

  /** Extending the counted prefix by one trial adds one exactly when that trial succeeds. */
  lemma CountOneMore(n: int, s: int, m: nat, trials: seq<seq<int>>, i: nat)
    requires i < |trials|
    ensures CountSuccesses(n, s, m, trials[..i + 1])
         == CountSuccesses(n, s, m, trials[..i]) + (if Succeeds(n, s, m, trials[i]) then 1 else 0)
  {
    assert trials[..i + 1][..i] == trials[..i];
  }

  /** The success rate: a count out of a positive total, as a fraction in [0, 1]
      that scales back to the count. */
  function Rate(count: nat, total: nat): (rate: real)
    requires 0 < total && count <= total
    ensures 0.0 <= rate <= 1.0
    ensures rate * total as real == count as real
  {
    count as real / total as real
  }

  /** The indices of the successful trials. */
  ghost function SuccessIndices(n: int, s: int, m: nat, trials: seq<seq<int>>): set<nat>
  {
    set i: nat | i < |trials| && Succeeds(n, s, m, trials[i])
  }

  /** The running count is the number of successful trials. */
  lemma {:induction false} CountIsNumberOfSuccesses(n: int, s: int, m: nat, trials: seq<seq<int>>)
    ensures CountSuccesses(n, s, m, trials) == |SuccessIndices(n, s, m, trials)|
  {
    if |trials| > 0 {
      var front := trials[..|trials| - 1];
      var last := |trials| - 1;
      CountIsNumberOfSuccesses(n, s, m, front);
      SuccessIndicesOneMore(n, s, m, trials);
      if Succeeds(n, s, m, trials[last]) {
        assert last !in SuccessIndices(n, s, m, front);
      }
    }
  }

  /** The successful indices of a batch are those of all but its last trial,
      plus the last index when that trial succeeds. */
  lemma SuccessIndicesOneMore(n: int, s: int, m: nat, trials: seq<seq<int>>)
    requires |trials| > 0
    ensures SuccessIndices(n, s, m, trials)
         == SuccessIndices(n, s, m, trials[..|trials| - 1])
            + (if Succeeds(n, s, m, trials[|trials| - 1]) then {|trials| - 1} else {})
  {
  }

  /** On a shuffle of 1..n with a non-empty sample, the worst rank `n` is chosen
      exactly when the best candidate is in the sample. */
  lemma WorstChosenIffBestInSample(n: int, m: nat, candidates: seq<int>)
    requires IsRankPermutation(candidates, n) && n > 0 && m > 0
    ensures Choose(n, m, candidates).Ok?
    ensures Choose(n, m, candidates).value.chosen == n
        <==> 1 in candidates[..SampleSize(candidates, m)]
  {
    var sel := Choose(n, m, candidates).value;
    var k := SampleSize(candidates, m);
    if 1 in candidates[..k] {
      assert sel.standard == 1;
    } else {
      assert 1 in candidates;
      var p :| 0 <= p < |candidates| && candidates[p] == 1;
      assert p >= k;
      assert candidates[p] < sel.standard;
    }
  }

  /** On a shuffle of 1..n with a non-empty sample, the chosen rank is a real rank. */
  lemma ChosenIsARank(n: int, m: nat, candidates: seq<int>)
    requires IsRankPermutation(candidates, n) && n > 0 && m > 0
    ensures 1 <= Choose(n, m, candidates).value.chosen <= n
  {
  }
}

=== FILE: ssqs.dfy ===
/** The single-server queueing simulation. Event kinds: 1 arrival, 2 departure.
    Waiting customers' arrival times sit in a fixed array, slots 1..numInQ in
    order of arrival (slot 0 is unused), as in ssqs.cpp. */
module SingleServerQueue {
  import opened Results
  import EventList
  import Variates
  import Arith

  /** Capacity of the arrival-time array; one more arrival is an overflow. */
  const QLimit: nat := 100
  const NumEvents: nat := 2
  const Arrival: nat := 1
  const Departure: nat := 2

  datatype Server = Idle | Busy

  /** The numeric server status ssqs.cpp integrates: BUSY is 1, IDLE is 0. */
  function StatusValue(server: Server): real
  {
    if server == Busy then 1.0 else 0.0
  }

  /** The simulation state; `due` is the event list, kind k at index k - 1. */
  datatype State = State(
    simTime: real,
    timeLastEvent: real,
    server: Server,
    numInQ: nat,
    timeArrival: seq<real>,
    due: seq<real>,
    numCustsDelayed: nat,
    totalOfDelays: real,
    areaNumInQ: real,
    areaServerStatus: real,
    eventCounter: nat,
    arrivalCounter: nat,
    departureCounter: nat)

  /** The random draws one dispatched event may consume: the exponential
      interarrival time and the exponential service time. */
  datatype Draws = Draws(interarrival: real, service: real)

  datatype Failure =
    | EventListEmpty(at: real)
    | QueueOverflow(at: real)
    | DrawsExhausted

  /** The fixed sizes of the arrays in ssqs.cpp, with the queue inside its array. */
  ghost predicate Shape(s: State)
  {
    && |s.timeArrival| == QLimit + 1
    && |s.due| == NumEvents
    && s.numInQ <= QLimit
  }

  /** The arrival times of the waiting customers, front of the queue first. */
  function Waiting(s: State): seq<real>
    requires Shape(s)
  {
    s.timeArrival[1..s.numInQ + 1]
  }

  ghost predicate DrawsOk(d: Draws)
  {
    d.interarrival >= 0.0 && d.service >= 0.0
  }

  ghost predicate AllDrawsOk(draws: seq<Draws>)
  {
    forall i :: 0 <= i < |draws| ==> DrawsOk(draws[i])
  }

  /** The invariant between events: a waiting customer implies a busy server,
      an idle server has no departure scheduled, every arrived customer has
      either begun service or is waiting, every customer who began service has
      departed except the one in service, the event counters add up, no event
      is due in the past, and the queue holds past arrival times in FIFO order. */
  ghost predicate Valid(s: State)
  {
    && Shape(s)
    && (s.numInQ > 0 ==> s.server == Busy)
    && (s.server == Idle ==> s.due[Departure - 1] == EventList.Never)
    && s.eventCounter == s.arrivalCounter + s.departureCounter
    && s.arrivalCounter == s.numCustsDelayed + s.numInQ
    && s.departureCounter + (if s.server == Busy then 1 else 0) == s.numCustsDelayed
    && s.simTime < EventList.Threshold
    && (forall j :: 0 <= j < NumEvents ==> s.due[j] >= s.simTime)
    && s.timeLastEvent == s.simTime
    && (forall i :: 1 <= i <= s.numInQ ==> s.timeArrival[i] <= s.simTime)
    && (forall i, j :: 1 <= i <= j <= s.numInQ ==> s.timeArrival[i] <= s.timeArrival[j])
    && s.totalOfDelays >= 0.0
    && s.areaNumInQ >= 0.0
    && s.areaServerStatus >= 0.0
  }

  /** `initialize`: clock, counters and statistics at zero, the server idle, the
      queue empty, the first arrival after `firstInterarrival` and no departure.
      ssqs.cpp leaves the arrival-time array unset; it starts at zeros here. */
  function Initialize(firstInterarrival: real): (s: State)
    ensures firstInterarrival >= 0.0 ==> Valid(s)
    ensures Shape(s) && Waiting(s) == []
    ensures s.simTime == 0.0 && s.timeLastEvent == 0.0
    ensures s.server == Idle && s.numCustsDelayed == 0
    ensures s.eventCounter == 0 && s.arrivalCounter == 0 && s.departureCounter == 0
    ensures s.totalOfDelays == 0.0 && s.areaNumInQ == 0.0 && s.areaServerStatus == 0.0
    ensures s.due == [s.simTime + firstInterarrival, EventList.Never]
  {
    State(0.0, 0.0, Idle, 0, seq(QLimit + 1, _ => 0.0),
          [0.0 + firstInterarrival, EventList.Never],
          0, 0.0, 0.0, 0.0, 0, 0, 0)
  }

  /** The queue-length area accrued up to time `t`: the length since the last
      update held over the interval from that update to `t`. */
  function QueueAreaAt(s: State, t: real): real
  {
    s.areaNumInQ + s.numInQ as real * (t - s.timeLastEvent)
  }

  /** The busy-time area accrued up to time `t`: the server status since the last
      update held over the interval from that update to `t`. */
  function BusyAreaAt(s: State, t: real): real
  {
    s.areaServerStatus + StatusValue(s.server) * (t - s.timeLastEvent)
  }

  /** `update_time_avg_stats`: integrates the pre-event queue length and server
      status over the time since the last update. */
  function UpdateTimeAvgStats(s: State): (r: State)
    ensures r == s.(timeLastEvent := s.simTime, areaNumInQ := r.areaNumInQ, areaServerStatus := r.areaServerStatus)
    ensures r.areaNumInQ - s.areaNumInQ == s.numInQ as real * (s.simTime - s.timeLastEvent)
    ensures s.server == Busy ==> r.areaServerStatus - s.areaServerStatus == s.simTime - s.timeLastEvent
    ensures s.server == Idle ==> r.areaServerStatus == s.areaServerStatus
    ensures s.simTime >= s.timeLastEvent ==> r.areaNumInQ >= s.areaNumInQ && r.areaServerStatus >= s.areaServerStatus
  {
    var dt := s.simTime - s.timeLastEvent;
    Arith.MulNonNegative(s.numInQ as real, dt);
    s.(timeLastEvent := s.simTime,
       areaNumInQ := s.areaNumInQ + s.numInQ as real * dt,
       areaServerStatus := s.areaServerStatus + StatusValue(s.server) * dt)
  }

  /** `arrive`: count the event and schedule the next arrival. A busy server makes
      the customer wait at the tail of the queue, unless the array is full, which
      is fatal; an idle server takes the customer at once with zero delay and
      schedules the departure. */
  function Arrive(s: State, d: Draws): (r: Result<State, Failure>)
    requires Shape(s)
    ensures r.Err? <==> s.server == Busy && s.numInQ == QLimit
    ensures r.Err? ==> r.error == QueueOverflow(s.simTime)
    ensures r.Ok? ==>
      && Shape(r.value)
      && r.value.eventCounter == s.eventCounter + 1
      && r.value.arrivalCounter == s.arrivalCounter + 1
      && r.value.departureCounter == s.departureCounter
      && r.value.due[Arrival - 1] == s.simTime + d.interarrival
      && r.value.server == Busy
      && r.value.simTime == s.simTime && r.value.timeLastEvent == s.timeLastEvent
      && r.value.areaNumInQ == s.areaNumInQ && r.value.areaServerStatus == s.areaServerStatus
      && r.value.totalOfDelays == s.totalOfDelays
    ensures r.Ok? && s.server == Idle ==>
      && r.value.numCustsDelayed == s.numCustsDelayed + 1
      && r.value.numInQ == s.numInQ
      && r.value.timeArrival == s.timeArrival
      && r.value.due[Departure - 1] == s.simTime + d.service
    ensures r.Ok? && s.server == Busy ==>
      && r.value.numCustsDelayed == s.numCustsDelayed
      && r.value.numInQ == s.numInQ + 1
      && Waiting(r.value) == Waiting(s) + [s.simTime]
      && r.value.due[Departure - 1] == s.due[Departure - 1]
  {
    var s1 := s.(eventCounter := s.eventCounter + 1,
                 arrivalCounter := s.arrivalCounter + 1,
                 due := s.due[Arrival - 1 := s.simTime + d.interarrival]);
    if s.server == Busy then
      var n := s.numInQ + 1;
      if n > QLimit then Err(QueueOverflow(s.simTime))
      else
        var r := s1.(numInQ := n, timeArrival := s.timeArrival[n := s.simTime]);
        assert Waiting(r) == Waiting(s) + [s.simTime];
        Ok(r)
    else
      var delay := 0.0;
      Ok(s1.(totalOfDelays := s.totalOfDelays + delay,
             numCustsDelayed := s.numCustsDelayed + 1,
             server := Busy,
             due := s1.due[Departure - 1 := s.simTime + d.service]))
  }

  /** The shifting loop of `depart` from slot `i` to slot `n`: each slot takes the
      value of the slot after it, in increasing order. */
  function ShiftFrom(a: seq<real>, i: nat, n: nat): (r: seq<real>)
    requires 1 <= i && n + 1 < |a|
    ensures |r| == |a|
    ensures forall k :: i <= k <= n ==> r[k] == a[k + 1]
    ensures forall k :: 0 <= k < |a| && (k < i || n < k) ==> r[k] == a[k]
    decreases n + 1 - i
  {
    if i > n then a else ShiftFrom(a[i := a[i + 1]], i + 1, n)
  }

  /** `depart`: count the event. With nobody waiting the server goes idle and no
      departure is scheduled. Otherwise the front customer begins service: its
      delay is added, it is counted as delayed, its departure is scheduled and
      the rest of the queue moves up one slot. */
  function Depart(s: State, d: Draws): (r: State)
    requires Shape(s)
    ensures Shape(r)
    ensures r.eventCounter == s.eventCounter + 1
    ensures r.departureCounter == s.departureCounter + 1
    ensures r.arrivalCounter == s.arrivalCounter
    ensures r.due[Arrival - 1] == s.due[Arrival - 1]
    ensures r.simTime == s.simTime && r.timeLastEvent == s.timeLastEvent
    ensures r.areaNumInQ == s.areaNumInQ && r.areaServerStatus == s.areaServerStatus
    ensures s.numInQ == 0 ==>
      && r.server == Idle
      && r.due[Departure - 1] == EventList.Never
      && r.numCustsDelayed == s.numCustsDelayed
      && r.totalOfDelays == s.totalOfDelays
      && Waiting(r) == []
    ensures s.numInQ > 0 ==>
      && r.server == s.server
      && r.numInQ == s.numInQ - 1
      && r.totalOfDelays == s.totalOfDelays + (s.simTime - Waiting(s)[0])
      && r.numCustsDelayed == s.numCustsDelayed + 1
      && r.due[Departure - 1] == s.simTime + d.service
      && Waiting(r) == Waiting(s)[1..]
  {
    var s1 := s.(eventCounter := s.eventCounter + 1, departureCounter := s.departureCounter + 1);
    if s.numInQ == 0 then
      s1.(server := Idle, due := s.due[Departure - 1 := EventList.Never])
    else
      var n := s.numInQ - 1;
      var delay := s.simTime - s.timeArrival[1];
      var r := s1.(numInQ := n,
                   totalOfDelays := s.totalOfDelays + delay,
                   numCustsDelayed := s.numCustsDelayed + 1,
                   due := s.due[Departure - 1 := s.simTime + d.service],
                   timeArrival := ShiftFrom(s.timeArrival, 1, n));
      assert Waiting(r) == Waiting(s)[1..] by {
        assert forall k :: 0 <= k < n ==> Waiting(r)[k] == s.timeArrival[k + 2] == Waiting(s)[1..][k];
      }
      r
  }

  /** One pass of the loop body: `timing` picks the next kind and advances the
      clock, the statistics integrate the elapsed interval, and kind 1 goes to
      `arrive`, anything else to `depart`. */
  function Step(s: State, d: Draws): (r: Result<State, Failure>)
    requires Shape(s)
    ensures EventList.AllNever(s.due) <==> r == Err(EventListEmpty(s.simTime))
    ensures r.Ok? ==>
      && Shape(r.value)
      && EventList.Timing(s.due).Some?
      && r.value.simTime == EventList.Timing(s.due).value.time
      && r.value.timeLastEvent == r.value.simTime
      && r.value.eventCounter == s.eventCounter + 1
      && r.value.arrivalCounter + r.value.departureCounter == s.arrivalCounter + s.departureCounter + 1
    ensures r.Err? && !EventList.AllNever(s.due) ==>
      && r == Err(QueueOverflow(EventList.Timing(s.due).value.time))
      && EventList.Timing(s.due).value.kind == Arrival
      && s.server == Busy && s.numInQ == QLimit
    ensures r.Ok? ==>
      && r.value.areaNumInQ == QueueAreaAt(s, r.value.simTime)
      && r.value.areaServerStatus == BusyAreaAt(s, r.value.simTime)
    ensures r.Ok? && EventList.Timing(s.due).value.kind == Arrival ==>
      && r.value.arrivalCounter == s.arrivalCounter + 1
      && r.value.departureCounter == s.departureCounter
      && r.value.due[Arrival - 1] == r.value.simTime + d.interarrival
      && r.value.server == Busy
      && r.value.totalOfDelays == s.totalOfDelays
      && (s.server == Idle ==> r.value.due[Departure - 1] == r.value.simTime + d.service)
      && (s.server == Busy ==> r.value.due[Departure - 1] == s.due[Departure - 1])
      && (s.server == Idle ==> r.value.numCustsDelayed == s.numCustsDelayed + 1 && Waiting(r.value) == Waiting(s))
      && (s.server == Busy ==> r.value.numCustsDelayed == s.numCustsDelayed && Waiting(r.value) == Waiting(s) + [r.value.simTime])
    ensures r.Ok? && EventList.Timing(s.due).value.kind != Arrival ==>
      && r.value.departureCounter == s.departureCounter + 1
      && r.value.arrivalCounter == s.arrivalCounter
      && r.value.due[Arrival - 1] == s.due[Arrival - 1]
      && (s.numInQ == 0 ==> r.value.server == Idle && r.value.due[Departure - 1] == EventList.Never
                            && r.value.numCustsDelayed == s.numCustsDelayed
                            && r.value.totalOfDelays == s.totalOfDelays)
      && (s.numInQ > 0 ==> r.value.numCustsDelayed == s.numCustsDelayed + 1
                           && r.value.due[Departure - 1] == r.value.simTime + d.service
                           && r.value.totalOfDelays == s.totalOfDelays + (r.value.simTime - Waiting(s)[0])
                           && Waiting(r.value) == Waiting(s)[1..])
  {
    match EventList.Timing(s.due)
    case None => Err(EventListEmpty(s.simTime))
    case Some(next) =>
      var s1 := UpdateTimeAvgStats(s.(simTime := next.time));
      assert Shape(s1) && Waiting(s1) == Waiting(s) && s1.simTime == next.time;
      assert s1.areaNumInQ == QueueAreaAt(s, s1.simTime);
      assert s1.areaServerStatus == BusyAreaAt(s, s1.simTime);
      if next.kind == Arrival then Arrive(s1, d) else Ok(Depart(s1, d))
  }

  /** The `while (num_custs_delayed < num_delays_required)` loop, one draw record
      per pass. Running out of draw records is an artefact of the model, which
      cannot take an unbounded random stream. */
  function Run(required: int, s: State, draws: seq<Draws>): (r: Result<State, Failure>)
    requires Shape(s)
    ensures r.Ok? ==> r.value.numCustsDelayed >= required
    ensures s.numCustsDelayed >= required ==> r == Ok(s)
    decreases |draws|
  {
    if s.numCustsDelayed >= required then Ok(s)
    else if |draws| == 0 then Err(DrawsExhausted)
    else
      match Step(s, draws[0])
      case Err(e) => Err(e)
      case Ok(s1) => Run(required, s1, draws[1..])
  }

  /** `simulate`: initialise, then loop until enough customers were delayed; with
      nothing required the loop does not run and the initial state is the result. */
  function Simulate(required: int, firstInterarrival: real, draws: seq<Draws>): (r: Result<State, Failure>)
    ensures r.Ok? ==> r.value.numCustsDelayed >= required
    ensures required <= 0 ==> r == Ok(Initialize(firstInterarrival))
    ensures required > 0 && |draws| == 0 ==> r == Err(DrawsExhausted)
  {
    Run(required, Initialize(firstInterarrival), draws)
  }

  /** `arrive` keeps the invariant. */
  lemma ArrivePreservesValid(s: State, d: Draws)
    requires Valid(s) && DrawsOk(d)
    requires Arrive(s, d).Ok?
    ensures Valid(Arrive(s, d).value)
  {
  }

  /** `depart`, which only fires while the server is busy, keeps the invariant;
      in particular the delay it adds is never negative. */
  lemma DepartPreservesValid(s: State, d: Draws)
    requires Valid(s) && DrawsOk(d) && s.server == Busy
    ensures Valid(Depart(s, d))
    ensures Depart(s, d).totalOfDelays >= s.totalOfDelays
  {
  }

  /** A pass of the loop keeps the invariant, never moves the clock backward,
      never decreases the accumulated delay, and delays at most one more customer. */
  lemma StepPreservesValid(s: State, d: Draws)
    requires Valid(s) && DrawsOk(d)
    requires Step(s, d).Ok?
    ensures Valid(Step(s, d).value)
    ensures Step(s, d).value.simTime >= s.simTime
    ensures Step(s, d).value.totalOfDelays >= s.totalOfDelays
    ensures s.numCustsDelayed <= Step(s, d).value.numCustsDelayed <= s.numCustsDelayed + 1
  {
    var next := EventList.Timing(s.due).value;
    var s1 := UpdateTimeAvgStats(s.(simTime := next.time));
    assert Valid(s1);
    if next.kind == Arrival {
      ArrivePreservesValid(s1, d);
    } else {
      DepartPreservesValid(s1, d);
    }
  }

  /** A run that finishes from a valid state with no more than `required`
      customers delayed stops with exactly `required` delayed, in a valid state. */
  lemma {:induction false} RunReachesExactCount(required: int, s: State, draws: seq<Draws>)
    requires Valid(s) && AllDrawsOk(draws)
    requires s.numCustsDelayed <= required
    requires Run(required, s, draws).Ok?
    ensures Run(required, s, draws).value.numCustsDelayed == required
    ensures Valid(Run(required, s, draws).value)
    decreases |draws|
  {
    if s.numCustsDelayed < required {
      var s1 := Step(s, draws[0]).value;
      StepPreservesValid(s, draws[0]);
      assert AllDrawsOk(draws[1..]) by {
        forall i | 0 <= i < |draws[1..]| ensures DrawsOk(draws[1..][i]) {
          assert draws[1..][i] == draws[i + 1];
        }
      }
      RunReachesExactCount(required, s1, draws[1..]);
    }
  }

  /** `simulate` from `initialize` with a non-negative requirement: a finished
      run has delayed exactly `required` customers and ends in a valid state. */
  lemma SimulateDelaysExactly(required: int, firstInterarrival: real, draws: seq<Draws>)
    requires 0 <= required && firstInterarrival >= 0.0 && AllDrawsOk(draws)
    requires Simulate(required, firstInterarrival, draws).Ok?
    ensures Simulate(required, firstInterarrival, draws).value.numCustsDelayed == required
    ensures Valid(Simulate(required, firstInterarrival, draws).value)
  {
    RunReachesExactCount(required, Initialize(firstInterarrival), draws);
  }

  /** The first customer finds the server idle: with one delay required, the run
      ends after that single arrival, with zero total delay, nobody waiting, the
      server busy and the departure scheduled one service time later. */
  lemma FirstArrivalIsNotDelayed(firstInterarrival: real, draws: seq<Draws>)
    requires 0.0 <= firstInterarrival < EventList.Threshold && |draws| >= 1
    ensures Simulate(1, firstInterarrival, draws).Ok?
    ensures Simulate(1, firstInterarrival, draws).value.eventCounter == 1
    ensures Simulate(1, firstInterarrival, draws).value.numCustsDelayed == 1
    ensures Simulate(1, firstInterarrival, draws).value.totalOfDelays == 0.0
    ensures Simulate(1, firstInterarrival, draws).value.numInQ == 0
    ensures Simulate(1, firstInterarrival, draws).value.server == Busy
    ensures Simulate(1, firstInterarrival, draws).value.simTime == firstInterarrival
    ensures Simulate(1, firstInterarrival, draws).value.due[Departure - 1]
         == firstInterarrival + draws[0].service
  {
  }

  /** Runs do finish past their first pass. When the first customer's service
      ends before the second customer arrives, a run that needs two delays takes
      three passes (arrival, departure, arrival). Neither customer waits, and the
      run ends at the second arrival. */
  lemma TwoCustomersWithoutWaiting(firstInterarrival: real, draws: seq<Draws>)
    requires 0.0 <= firstInterarrival && |draws| >= 3
    requires 0.0 <= draws[0].service < draws[0].interarrival
    requires firstInterarrival + draws[0].interarrival < EventList.Threshold
    ensures Simulate(2, firstInterarrival, draws).Ok?
    ensures Simulate(2, firstInterarrival, draws).value.numCustsDelayed == 2
    ensures Simulate(2, firstInterarrival, draws).value.eventCounter == 3
    ensures Simulate(2, firstInterarrival, draws).value.totalOfDelays == 0.0
    ensures Simulate(2, firstInterarrival, draws).value.simTime == firstInterarrival + draws[0].interarrival
  {
    var t0 := firstInterarrival;
    var s0 := Initialize(t0);
    assert EventList.IsEarliest(s0.due, Arrival);
    EventList.TimingSelectsEarliest(s0.due, Arrival);
    var s1 := Step(s0, draws[0]).value;
    assert s1.due == [t0 + draws[0].interarrival, t0 + draws[0].service];
    assert s1.numCustsDelayed == 1 && s1.numInQ == 0 && s1.totalOfDelays == 0.0;
    assert Run(2, s0, draws) == Run(2, s1, draws[1..]);

    assert EventList.IsEarliest(s1.due, Departure);
    EventList.TimingSelectsEarliest(s1.due, Departure);
    var s2 := Step(s1, draws[1]).value;
    assert s2.due == [t0 + draws[0].interarrival, EventList.Never];
    assert s2.server == Idle && s2.numCustsDelayed == 1 && s2.totalOfDelays == 0.0;
    assert Run(2, s1, draws[1..]) == Run(2, s2, draws[2..]);

    assert EventList.IsEarliest(s2.due, Arrival);
    EventList.TimingSelectsEarliest(s2.due, Arrival);
    var s3 := Step(s2, draws[2]).value;
    assert s3.numCustsDelayed == 2;
    assert Run(2, s2, draws[2..]) == Ok(s3);
  }

  /** An arrival and a departure due at the same time: the arrival is handled first. */
  lemma ArrivalWinsTie(s: State, d: Draws)
    requires Shape(s)
    requires s.due[Arrival - 1] == s.due[Departure - 1] < EventList.Threshold
    ensures Step(s, d) == Arrive(UpdateTimeAvgStats(s.(simTime := s.due[Arrival - 1])), d)
  {
  }
}

=== FILE: variates.dfy ===
/** The variate generators that can be written without a logarithm. The uniform
    draw `u` that inventory.cpp takes from its random stream is a parameter here. */
module Variates {
  import opened Results
  import Arith

  /** The search loop of `random_integer` from index `i` on: it walks up the
      cumulative table while `u` is not below the entry. inventory.cpp reads past
      the end of the table when `u` is not below any entry; the model returns `None`. */
  function SearchFrom(cdf: seq<real>, u: real, i: nat): (r: Option<nat>)
    requires 1 <= i
    ensures r.Some? ==> i <= r.value < |cdf| && u < cdf[r.value]
    ensures r.Some? ==> forall j :: i <= j < r.value ==> u >= cdf[j]
    ensures r.None? <==> forall j :: i <= j < |cdf| ==> u >= cdf[j]
    decreases |cdf| - i
  {
    if i >= |cdf| then None
    else if u >= cdf[i] then SearchFrom(cdf, u, i + 1)
    else Some(i)
  }

  /** `random_integer`: the discrete empirical variate for a cumulative table whose
      entries for outcomes 1..N sit at indices 1..N (index 0 is unused, and zero in
      inventory.cpp). The result is the smallest index whose entry exceeds `u`. */
  function RandomInteger(cdf: seq<real>, u: real): (r: Option<nat>)
    ensures r.Some? ==> 1 <= r.value < |cdf| && u < cdf[r.value]
    ensures r.Some? ==> forall j :: 1 <= j < r.value ==> u >= cdf[j]
    ensures r.None? <==> forall j :: 1 <= j < |cdf| ==> u >= cdf[j]
  {
    SearchFrom(cdf, u, 1)
  }

  /** The table is a cumulative distribution: it starts at 0 and never decreases. */
  ghost predicate IsCumulative(cdf: seq<real>)
  {
    && |cdf| >= 1
    && cdf[0] == 0.0
    && forall i, j :: 0 <= i <= j < |cdf| ==> cdf[i] <= cdf[j]
  }

  /** When the last entry exceeds `u`, the draw never runs off the table: the
      outcome lies in 1..N. */
  lemma RandomIntegerInRange(cdf: seq<real>, u: real)
    requires |cdf| >= 2 && u < cdf[|cdf| - 1]
    ensures RandomInteger(cdf, u).Some?
    ensures 1 <= RandomInteger(cdf, u).value <= |cdf| - 1
  {
  }

  /** Inverse-transform reading of the search: on a cumulative table and a draw
      `u >= 0`, outcome `i` is returned exactly when `cdf[i-1] <= u < cdf[i]`. */
  lemma RandomIntegerIsInverseTransform(cdf: seq<real>, u: real, i: nat)
    requires IsCumulative(cdf) && 0.0 <= u
    requires 1 <= i < |cdf|
    ensures RandomInteger(cdf, u) == Some(i) <==> cdf[i - 1] <= u < cdf[i]
  {
  }

  /** `uniform(a, b)`: the draw `u` scaled onto the interval from `a` to `b`. */
  function Uniform(a: real, b: real, u: real): (r: real)
    ensures u == 0.0 ==> r == a
    ensures u == 1.0 ==> r == b
    ensures a == b ==> r == a
  {
    a + (b - a) * u
  }

  /** A uniform draw in [0, 1] lands in [a, b], at `a` for 0 and at `b` for 1. */
  lemma UniformInRange(a: real, b: real, u: real)
    requires a <= b && 0.0 <= u <= 1.0
    ensures a <= Uniform(a, b, u) <= b
    ensures u == 0.0 ==> Uniform(a, b, u) == a
    ensures u == 1.0 ==> Uniform(a, b, u) == b
  {
    Arith.MulNonNegative(b - a, u);
    Arith.MulNonNegative(b - a, 1.0 - u);
    assert (b - a) * u + (b - a) * (1.0 - u) == b - a;
  }
}
